=== FILE: README.md ===
# Instrumented quicksort and the two result checkers

This project models three pieces of a sorting-algorithms benchmark written
in C++, and proves properties of the models in Dafny.

- `quicksort.cpp` is a partition-exchange sort of a `std::vector<int>`. It
  picks the middle element as the pivot, scans two cursors towards each
  other, swaps, and recurses on the two parts. While it works it counts
  comparisons and memory accesses into two counters that the caller passes
  by reference.
- `sortedverification.cxx` reads a results document. For every sample other
  than the `metadata` entry, it reports each adjacent inversion
  (`s[i] > s[i+1]`) under its position, together with the pair of values,
  and it counts the samples that have any inversion.
- `consistentresultverification.cxx` compares two results documents. It
  takes every sample name found in either document (again minus
  `metadata`) and reports the samples that are missing from one document,
  that differ in size, or that differ at some positions. It counts the
  reported samples.

Files:

- `ordering.dfy` (module `Ordering`) holds the order notions both sides
  share. "Sorted" is stated over every pair of positions; "no adjacent
  inversion" is what the checker scans for. A lemma proves the two are the
  same.
- `quicksort.dfy` (module `QuickSort`) is the sort. The vector is a value
  (`seq<int>`), and the two counters are a `Counters` value threaded through
  every step. Each C++ loop is a tail-recursive function whose precondition
  is the loop invariant.
- `sorted_verification.dfy` (module `SortedVerification`) is the sortedness
  checker.
- `consistent_result_verification.dfy` (module `ConsistentResultVerification`)
  is the consistency checker.
- `results_document.dfy` (module `ResultsDocument`) holds what both
  checkers share: the parsed document type and the `metadata` key.

In both checkers a parsed document is a `map<string, seq<int>>`. Output
entries are maps keyed by sample name. Position keys, which the programs
write as decimal strings, are kept as numbers.

The counting policy follows the code:

- reading the pivot is 1 access;
- every cursor test, including the failing test that stops a scan, is
  1 comparison and 1 access;
- every `l >= h` test is 1 comparison;
- every swap is 4 accesses.

A partition that runs `rounds` rounds and makes `tests` cursor tests
therefore counts exactly `tests + rounds` comparisons and
`1 + tests + 4 * (rounds - 1)` accesses. The cursors end at most one
position apart, so `tests` is between `k - i + 2` and `k - i + 3`. Each
partition also reports the pairs of positions it swapped, one per round but
the last, and swapping those pairs of its input in order gives exactly the
contents it returns; so the `4 * (rounds - 1)` swap accesses are charged for
swaps that were made. Over a whole sort, the accesses added exceed the
comparisons added by exactly three per swap.

Two properties of the partition are not obvious from the code. On inputs
with many equal values the split point might reach `k`, so the recursion
would not end. The unchecked scans might read past the vector. Neither
happens:

- `Partition` proves `i <= j < k`;
- `RoundSentinels` proves that each scan has an element to stop on inside
  `[i, k]`, so neither scan leaves the range;
- `QuickSortRecurse` terminates on `k - i` for every input, including
  inputs where all values are equal.

## Model

| member | source | states |
|---|---|---|
| `Ordering.NoInversionIffSorted` | sortedverification.cxx:73-83 | A sequence has no adjacent inversion iff it is non-decreasing over every pair of positions, so the checker's local test decides sortedness. |
| `Ordering.SortedPermutationUnique` | quicksort.cpp:9-11 | Two sorted rearrangements of the same multiset are equal, so the sort's output is determined by its input's values. |
| `QuickSort.ScanUp` | quicksort.cpp:52-60 | The `l` scan stops at the first position at or after `l` whose value is at least the pivot; every value it passed is below the pivot. It counts one comparison and one access per test, including the failing test. |
| `QuickSort.ScanDown` | quicksort.cpp:62-70 | The `h` scan stops at the last position at or before `h` whose value is at most the pivot; every value it passed is above the pivot. Its counts are the same as the `l` scan's. |
| `QuickSort.Swap` | quicksort.cpp:83-86 | Exchanges two positions, leaves every other position alone and keeps the multiset of values. |
| `QuickSort.Midpoint` | quicksort.cpp:43 | The pivot index lies in `[i, k)`, and it splits the range into halves whose sizes differ by at most one. |
| `QuickSort.RoundSentinels` | quicksort.cpp:50-70 | At the start of every round each unchecked scan has a value to stop on inside `[i, k]`: the pivot itself in the first round, the swapped values in later rounds. So the `l` scan stops at or before `k` and the `h` scan at or after `i`. |
| `QuickSort.RoundEnds` | quicksort.cpp:72-77 | When the cursors meet or cross, `[i, h]` is at most the pivot, `[h+1, k]` is at least it, and `i <= h < k`. |
| `QuickSort.CursorsAdjacent` | quicksort.cpp:53-77 | When the cursors meet or cross, they end at most one position apart (`l <= h + 1`), because every value the up scan passed is below the pivot and every value the down scan passed is above it. |
| `QuickSort.RoundSwaps` | quicksort.cpp:78-90 | When the cursors have not met, the swap and the cursor steps restore the round invariant, and the unscanned range gets smaller. |
| `QuickSort.PartitionLoop` | quicksort.cpp:50-93 | The rounds rearrange only `[i, k]` and return `h` with `i <= h < k`: values at most the pivot to the left of it, values at least the pivot to the right. Over `rounds >= 1` rounds with `tests >= 2 * rounds` scan tests, they count exactly `tests + rounds` comparisons and `tests + 4 * (rounds - 1)` accesses, with `h - l + 2 <= tests <= h - l + 3`: one test per position of `[l, h]`, plus one or two where the cursors meet or cross. They report one swapped pair per round but the last, and swapping those pairs of the input in order gives exactly the contents returned. |
| `QuickSort.Partition` | quicksort.cpp:34-94 | Partitioning around `a[i + (k-i)/2]` gives a permutation that frames `[i, k]` and splits at `i <= j < k`. It counts exactly `tests + rounds` comparisons and `1 + tests + 4 * (rounds - 1)` accesses, where the extra access is the pivot read, and `k - i + 2 <= tests <= k - i + 3`. It reports `rounds - 1` swapped pairs, and swapping them in order turns the input into the result. |
| `QuickSort.ApplySwapsAppend` | quicksort.cpp:24-29 | Swapping the pairs of one list and then those of another is swapping the pairs of the two lists joined, which is how the swaps of the partition and of the two recursive sorts add up to the swaps of the whole sort. |
| `QuickSort.SortedHalvesJoin` | quicksort.cpp:24-29 | Once `[i, k]` is partitioned at `j`, sorting `[i, j]` and then `[j+1, k]` sorts `[i, k]` and leaves the rest alone. |
| `QuickSort.QuickSortRecurse` | quicksort.cpp:13-32 | Sorts `[i, k]` into non-decreasing order by rearranging only that range. When `i >= k` it returns the vector untouched, with zero counts and no swaps. The swaps it reports, replayed in order on the input, give the result, and the accesses it counts exceed its comparisons by exactly three per reported swap. |
| `QuickSort.LastIndex` | quicksort.cpp:10 | `size() - 1` converted to `int` is `-1` for an empty vector and `size - 1` whenever that fits an `int`. |
| `QuickSort.QuickSort` | quicksort.cpp:9-11 | The result is a sorted permutation of the input, and it is what the reported swaps give when replayed on the input. The caller's counters only grow, and the accesses added exceed the comparisons added by exactly three per reported swap. An empty or one-element vector leaves both vector and counters unchanged. |
| `QuickSort.CountsIndependentOfStart` | quicksort.cpp:9-11 | The sorted vector does not depend on the starting counters, and neither do the counts added or the number of swaps. |
| `QuickSort.SortedContentsDetermined` | quicksort.cpp:9-11 | Any two inputs with the same values sort to the same vector. |
| `QuickSort.SortIdempotent` | quicksort.cpp:9-11 | Sorting a sorted output again returns it unchanged. |
| `QuickSort.SortedInputUnchanged` | quicksort.cpp:9-11 | A vector that is already sorted comes back as it was. |
| `QuickSort.AllEqualUnchanged` | quicksort.cpp:9-11 | A vector of at most 2^31 elements whose values are all equal comes back unchanged. |
| `QuickSort.PairFirstRound` | quicksort.cpp:52-86 | In the first round on `[2, 1]` both scans stop at their first test, and the pair is swapped to `[1, 2]`. |
| `QuickSort.PairSecondRound` | quicksort.cpp:52-77 | In the second round on `[1, 2]` both scans stop at once, the cursors have crossed, and `h = 0` is returned after 3 comparisons and 2 accesses. |
| `QuickSort.PairRounds` | quicksort.cpp:50-91 | On `[2, 1]` the rounds swap positions 0 and 1 once and stop at `h = 0`, counting 6 comparisons and 8 accesses over 2 rounds and 4 scan tests. |
| `QuickSort.PairPartition` | quicksort.cpp:34-94 | On `[2, 1]` the partition, pivot read included, counts 6 comparisons and 9 accesses and reports the one swap of positions 0 and 1. |
| `QuickSort.PairRecurse` | quicksort.cpp:13-32 | On `[2, 1]` the recursion sorts to `[1, 2]` with 6 comparisons, 9 accesses and the one swap of positions 0 and 1; both sub-ranges are base cases that count nothing. |
| `QuickSort.PairExample` | quicksort.cpp:9-11 | Sorting `[2, 1]` from zero counters gives `[1, 2]` with 6 comparisons, 9 accesses and the one swap of positions 0 and 1. |
| `SortedVerification.ScanSample` | sortedverification.cxx:66-83 | Records exactly the positions `i` with `s[i] > s[i+1]`, each with the pair of values. It sets the flag iff some inversion was found, which holds iff the sample is not sorted. |
| `SortedVerification.VisitFlagged` | sortedverification.cxx:86-92 | Flagging an unsorted sample adds one new entry holding its inversions and the sample itself. |
| `SortedVerification.CheckSorted` | sortedverification.cxx:54-93 | Exactly the non-metadata samples that are not sorted get an entry. Each entry holds the sample's inversions and the sample. `metadata` never gets an entry, and the count equals the number of entries. |
| `SortedVerification.EmptyReportIffAllSorted` | sortedverification.cxx:99 | `samplesWithInversions` is 0 iff every sample of the document is sorted. |
| `SortedVerification.SortOutputHasNoInversion` | sortedverification.cxx:73-83 | A vector the quicksort produced has no adjacent inversion, so the checker never flags it. |
| `SortedVerification.AsWrittenScanBound` | sortedverification.cxx:73 | The loop bound `size() - 1` computed on the unsigned 64-bit size wraps to 2^64 - 1 for an empty sample, and is `size - 1` otherwise. |
| `SortedVerification.AsWrittenOutOfRangeIffEmpty` | sortedverification.cxx:73-75 | The loop as written reads only inside the sample iff the sample is non-empty. For an empty sample the bound wraps and the first round reads positions 0 and 1. |
| `SortedVerification.AsWrittenAgreesWhenNonEmpty` | sortedverification.cxx:73 | For a non-empty sample, the bound as written admits the same positions as the guard `i + 1 < size` used by `ScanSample`. |
| `ConsistentResultVerification.SampleNames` | consistentresultverification.cxx:68-86 | A name is examined iff it occurs in either document and is not `metadata`. |
| `ConsistentResultVerification.PositionMismatches` | consistentresultverification.cxx:112-123 | Records exactly the positions where two equal-size arrays differ, each with both values. It sets the flag iff the arrays differ. |
| `ConsistentResultVerification.CompareSample` | consistentresultverification.cxx:89-131 | A sample conflicts iff the two documents do not hold it with equal values. A sample missing from either document is reported as missing before sizes are compared, and a size difference is reported before positions are compared. |
| `ConsistentResultVerification.ConflictAdded` | consistentresultverification.cxx:95-131 | Reporting a conflicting sample adds exactly one new entry, so each conflicting sample is counted once. |
| `ConsistentResultVerification.Compare` | consistentresultverification.cxx:68-132 | Exactly the examined names that do not agree get an entry, and each entry gives the reason the code would write. `metadata` never gets an entry, and the count equals the number of entries. |
| `ConsistentResultVerification.NoConflictsIffSameSamples` | consistentresultverification.cxx:141 | `samplesWithConflictingResults` is 0 iff every examined sample is present in both documents with equal values. |
| `ConsistentResultVerification.SelfComparisonClean` | consistentresultverification.cxx:89-132 | A document compared with itself reports no conflicting sample. |
| `ConsistentResultVerification.ComparisonSymmetric` | consistentresultverification.cxx:89-131 | Comparing in the other order flags the same samples. Each entry becomes its mirror image, with the arrays and each recorded pair swapped. |

## Left out

- The timing harness (`timealgorithms.cxx`) is not part of this model. That covers reading the samples, the clocks, the other two sorts and the CSV output.
- JSON reading and writing are left out: file handling, argument checks and pretty printing. So are the `metadata` fields that both checkers copy from input to output (`arraySize`, `numSamples`, file names), and the error the library raises when they are missing.
- A document is modelled as a map from names to `int` sequences: the values the code sees after nlohmann/json converts each sample to `vector<int>` (sortedverification.cxx:64, consistentresultverification.cxx:102-103). That conversion is left out: it truncates floating-point values (`1.5` becomes `1`), narrows integers wider than `int`, and turns booleans into `0` and `1`. So the code reports `[1.5]` and `[1.2]` as consistent at consistentresultverification.cxx:118. The errors the library raises are left out too: a value that is not an array, or an element that is not numeric.
- Iteration order over JSON objects and over `std::set` is left out. Both checkers produce maps, and the proofs show that the result does not depend on the order in which names are visited.
- The vector is modelled as a value, not mutated in place through a pointer. Each function returns the rearranged contents, and "nothing else changes" is stated as framing outside `[i, k]`.
- QuickSort.QuickSort: the counters are unbounded naturals; the 32-bit `int` wrap-around of `comp_count` and `mem_count` on very long runs is not modelled.
- QuickSort.QuickSort: sortedness is stated only for vectors of at most 2^31 elements. For larger vectors `size() - 1` does not fit the `int` parameter `k`, and the code then sorts only a truncated range (or nothing). The lemmas built on sortedness (`SortedInputUnchanged`, `AllEqualUnchanged`, `SortedContentsDetermined`, `SortIdempotent`) carry the same bound.
- SortedVerification.ScanSample: the `int` loop counter compared against the unsigned size is not modelled for samples longer than 2^31 elements.
- ConsistentResultVerification.PositionMismatches: the `int` loop counter compared against `array1.size()` is not modelled either, so the model makes no claim about what the code does for arrays longer than 2^31 elements.
- ConsistentResultVerification.Compare: the two arrays of a positional conflict are kept in fields `first` and `second`. The source stores them under the two file names, which collide with each other (or with `Mismatches`) when the names are equal. That output-key clash is not modelled.
- The exact counts for inputs other than `[2, 1]` are not computed as concrete examples. The general counting facts are proved for all inputs: each partition's counts in terms of its rounds and scan tests, with the scan tests within one of `k - i + 2` and the rounds one more than the swaps it made; counters that only grow; three extra accesses per swap; counts that do not depend on the starting counters.

## Findings

| source | as written | input that shows it | evidently intended | confidence | as-written member | corrected member |
|---|---|---|---|---|---|---|
| sortedverification.cxx:73 | `for (int i = 0; i < sample_array.size() - 1; i++)`: the bound is computed on the unsigned size, so an empty sample makes it 2^64 - 1 | a sample `[]`: the first round reads `sample_array[0]` and `sample_array[1]` of an empty vector | visit pairs only while `i + 1 < size`, so an empty sample is simply reported as sorted | not executed; follows from the C++ rules for unsigned arithmetic | `SortedVerification.AsWrittenOutOfRangeIffEmpty` | `SortedVerification.ScanSample` |

=== FILE: consistent_result_verification.dfy ===
/**
 * The consistency checker of consistentresultverification.cxx: given two
 * results documents, examine every sample name that occurs in either one
 * (the "metadata" entry aside) and report the samples that do not agree:
 * missing from one document, of different sizes, or differing at some
 * positions, each difference recorded as the pair of values.
 *
 * Documents are maps from sample name to values; position keys are kept as
 * numbers rather than decimal strings.  The two file names, which the
 * program uses as output keys for the two arrays, become the fields
 * `first` and `second`.  JSON reading and writing and the metadata fields
 * copied to the output are not part of this model.
 */
module ConsistentResultVerification {
  import opened ResultsDocument

  /**
   * Why a sample is reported: it is missing from one of the documents, the
   * two arrays differ in size, or they differ at the recorded positions
   * (with both arrays kept in the output).
   */
  datatype Conflict =
    | Missing
    | SizeMismatch
    | Positional(first: seq<int>, second: seq<int>, mismatches: map<nat, (int, int)>)

  /** The checker's output: one entry per conflicting sample, and how many there are. */
  datatype Report = Report(conflicts: map<string, Conflict>, samplesWithConflictingResults: nat)

  /** Every sample name of either document, the metadata entry excluded. */
  function SampleNames(d1: Document, d2: Document): (names: set<string>)
    ensures forall n :: n in names <==> (n in d1 || n in d2) && n != MetadataKey
  {
    (d1.Keys + d2.Keys) - {MetadataKey}
  }

  /** The sample is present, as a sample, in the document. */
  predicate Present(d: Document, name: string)
  {
    name in d && name != MetadataKey
  }

  /** A sample agrees when both documents hold it with the same values. */
  predicate Agrees(d1: Document, d2: Document, name: string)
  {
    Present(d1, name) && Present(d2, name) && d1[name] == d2[name]
  }

  /**
   * `m` records exactly the positions where a1 and a2 differ, each with
   * the pair of values found there.
   */
  ghost predicate MismatchesRecorded(m: map<nat, (int, int)>, a1: seq<int>, a2: seq<int>)
    requires |a1| == |a2|
  {
    && (forall x :: x in m <==> 0 <= x < |a1| && a1[x] != a2[x])
    && (forall x :: x in m ==> x < |a1| && m[x] == (a1[x], a2[x]))
  }

  /**
   * The entry the checker writes for a sample that does not agree: missing
   * wins over a size difference, which wins over positional differences.
   */
  ghost predicate ConflictFor(c: Conflict, d1: Document, d2: Document, name: string)
  {
    if !Present(d1, name) || !Present(d2, name) then c == Missing
    else if |d1[name]| != |d2[name]| then c == SizeMismatch
    else
      && c.Positional?
      && c.first == d1[name] && c.second == d2[name]
      && MismatchesRecorded(c.mismatches, d1[name], d2[name])
  }

  /**
   * The element loop for two arrays of the same size: record every
   * position where they differ.  Some position differs iff the arrays are
   * not equal.
   */
  method PositionMismatches(a1: seq<int>, a2: seq<int>) returns (mismatches: map<nat, (int, int)>, hasMismatches: bool)
    requires |a1| == |a2|
    ensures MismatchesRecorded(mismatches, a1, a2)
    ensures hasMismatches <==> mismatches != map[]
    ensures hasMismatches <==> a1 != a2
  {
    mismatches := map[];
    hasMismatches := false;
    var i: nat := 0;
    while i < |a1|
      invariant i <= |a1|
      invariant forall x :: x in mismatches <==> 0 <= x < i && a1[x] != a2[x]
      invariant forall x :: x in mismatches ==> x < |a1| && mismatches[x] == (a1[x], a2[x])
      invariant hasMismatches <==> mismatches != map[]
    {
      if a1[i] != a2[i] {
        hasMismatches := true;
        mismatches := mismatches[i := (a1[i], a2[i])];
      }
      i := i + 1;
    }
    if hasMismatches {
      var x :| x in mismatches;
      assert a1[x] != a2[x];
    } else {
      assert forall x :: 0 <= x < |a1| ==> a1[x] == a2[x];
    }
  }

  /**
   * One round of the name loop: decide whether the sample conflicts and,
   * if it does, the entry to write.
   */
  method CompareSample(d1: Document, d2: Document, name: string) returns (conflict: Conflict, conflicting: bool)
    ensures conflicting <==> !Agrees(d1, d2, name)
    ensures conflicting ==> ConflictFor(conflict, d1, d2, name)
  {
    var inFirst := name in d1 && name != MetadataKey;
    var inSecond := name in d2 && name != MetadataKey;
    if !inFirst || !inSecond {
      return Missing, true;
    }
    var values1 := d1[name];
    var values2 := d2[name];
    if |values1| != |values2| {
      return SizeMismatch, true;
    }
    var mismatches, hasMismatches := PositionMismatches(values1, values2);
    conflict := Positional(values1, values2, mismatches);
    conflicting := hasMismatches;
  }

  /** Exactly the examined names that do not agree have an entry. */
  ghost predicate ConflictsExactly(names: set<string>, d1: Document, d2: Document, examined: set<string>)
  {
    forall n :: n in names <==> n in examined && !Agrees(d1, d2, n)
  }

  /** Every entry is the one `ConflictFor` describes. */
  ghost predicate EntriesRecorded(conflicts: map<string, Conflict>, d1: Document, d2: Document)
  {
    forall n :: n in conflicts ==> ConflictFor(conflicts[n], d1, d2, n)
  }

  /**
   * The whole comparison: visit every sample name of either document once
   * and report each one that does not agree.  Each conflicting sample is
   * counted once, whatever the reason, so the count is the number of
   * entries.
   */
  method Compare(d1: Document, d2: Document) returns (report: Report)
    ensures ConflictsExactly(report.conflicts.Keys, d1, d2, SampleNames(d1, d2))
    ensures EntriesRecorded(report.conflicts, d1, d2)
    ensures MetadataKey !in report.conflicts
    ensures report.samplesWithConflictingResults == |report.conflicts.Keys|
  {
    var names := SampleNames(d1, d2);
    var conflicts: map<string, Conflict> := map[];
    var count: nat := 0;
    var remaining := names;
    while remaining != {}
      invariant remaining <= names
      invariant ConflictsExactly(conflicts.Keys, d1, d2, names - remaining)
      invariant EntriesRecorded(conflicts, d1, d2)
      invariant count == |conflicts.Keys|
      decreases remaining
    {
      var name :| name in remaining;
      var examined := names - remaining;
      assert names - (remaining - {name}) == examined + {name};
      remaining := remaining - {name};
      var conflict, conflicting := CompareSample(d1, d2, name);
      if conflicting {
        ConflictAdded(conflicts, d1, d2, examined, name, conflict);
        conflicts := conflicts[name := conflict];
        count := count + 1;
      } else {
        AgreementAdded(conflicts.Keys, d1, d2, examined, name);
      }
    }
    report := Report(conflicts, count);
  }

  /** Examining a sample that agrees adds no entry. */
  lemma AgreementAdded(names: set<string>, d1: Document, d2: Document, examined: set<string>, name: string)
    requires ConflictsExactly(names, d1, d2, examined)
    requires Agrees(d1, d2, name)
    ensures ConflictsExactly(names, d1, d2, examined + {name})
  {
  }

  /** Examining a conflicting sample adds its entry, which was not there before. */
  lemma ConflictAdded(conflicts: map<string, Conflict>, d1: Document, d2: Document, examined: set<string>, name: string, c: Conflict)
    requires ConflictsExactly(conflicts.Keys, d1, d2, examined)
    requires EntriesRecorded(conflicts, d1, d2)
    requires name !in examined && !Agrees(d1, d2, name) && ConflictFor(c, d1, d2, name)
    ensures name !in conflicts
    ensures |conflicts[name := c].Keys| == |conflicts.Keys| + 1
    ensures ConflictsExactly(conflicts[name := c].Keys, d1, d2, examined + {name})
    ensures EntriesRecorded(conflicts[name := c], d1, d2)
  {
    assert conflicts[name := c].Keys == conflicts.Keys + {name};
    ConflictNamed(conflicts.Keys, d1, d2, examined, name);
    EntryAdded(conflicts, d1, d2, name, c);
  }

  /** Examining a conflicting sample adds its name to the conflicting names. */
  lemma ConflictNamed(names: set<string>, d1: Document, d2: Document, examined: set<string>, name: string)
    requires ConflictsExactly(names, d1, d2, examined)
    requires !Agrees(d1, d2, name)
    ensures ConflictsExactly(names + {name}, d1, d2, examined + {name})
  {
  }

  /** Adding the entry of a conflicting sample keeps every entry as described. */
  lemma EntryAdded(conflicts: map<string, Conflict>, d1: Document, d2: Document, name: string, c: Conflict)
    requires EntriesRecorded(conflicts, d1, d2)
    requires ConflictFor(c, d1, d2, name)
    ensures EntriesRecorded(conflicts[name := c], d1, d2)
  {
    var after := conflicts[name := c];
    forall n | n in after
      ensures ConflictFor(after[n], d1, d2, n)
    {
      if n != name {
        assert after[n] == conflicts[n];
      }
    }
  }

  /**
   * The comparison reports nothing exactly when the two documents hold the
   * same samples with the same values.
   */
  lemma NoConflictsIffSameSamples(d1: Document, d2: Document, report: Report)
    requires ConflictsExactly(report.conflicts.Keys, d1, d2, SampleNames(d1, d2))
    requires report.samplesWithConflictingResults == |report.conflicts.Keys|
    ensures report.samplesWithConflictingResults == 0
        <==> forall n :: n in SampleNames(d1, d2) ==> Agrees(d1, d2, n)
  {
    if report.samplesWithConflictingResults == 0 {
      assert report.conflicts.Keys == {};
      forall n | n in SampleNames(d1, d2)
        ensures Agrees(d1, d2, n)
      {
        assert n !in report.conflicts.Keys;
      }
    } else {
      var n :| n in report.conflicts.Keys;
      assert !Agrees(d1, d2, n);
    }
  }

  /** A document compared with itself has no conflicting sample. */
  lemma SelfComparisonClean(d: Document, report: Report)
    requires ConflictsExactly(report.conflicts.Keys, d, d, SampleNames(d, d))
    requires report.samplesWithConflictingResults == |report.conflicts.Keys|
    ensures report.samplesWithConflictingResults == 0
  {
    NoConflictsIffSameSamples(d, d, report);
  }

  /** The same difference seen from the other document: the arrays and each recorded pair swap places. */
  function Mirrored(c: Conflict): (m: Conflict)
    ensures m.Missing? == c.Missing? && m.SizeMismatch? == c.SizeMismatch?
    ensures c.Positional? ==> m.first == c.second && m.second == c.first && m.mismatches.Keys == c.mismatches.Keys
  {
    match c
    case Missing => Missing
    case SizeMismatch => SizeMismatch
    case Positional(first, second, mismatches) =>
      Positional(second, first, map x | x in mismatches :: (mismatches[x].1, mismatches[x].0))
  }

  /**
   * Comparing in the other order reports the same samples, each with the
   * mirrored entry: the comparison does not favour either document.
   */
  lemma ComparisonSymmetric(d1: Document, d2: Document, name: string, c: Conflict)
    requires ConflictFor(c, d1, d2, name)
    ensures Agrees(d1, d2, name) <==> Agrees(d2, d1, name)
    ensures ConflictFor(Mirrored(c), d2, d1, name)
  {
    if Present(d1, name) && Present(d2, name) && |d1[name]| == |d2[name]| {
      var m := Mirrored(c).mismatches;
      forall x | x in m
        ensures x < |d2[name]| && m[x] == (d2[name][x], d1[name][x])
      {
        assert c.mismatches[x] == (d1[name][x], d2[name][x]);
      }
    }
  }
}

=== FILE: ordering.dfy ===
/**
 * Ordering notions shared by the sort model and the sortedness checker:
 * non-decreasing order stated over every pair of positions, and the local
 * form "no element exceeds its successor" that the checker scans for.
 */
module Ordering {

  /** The slice a[lo..hi) is non-decreasing, over every pair of positions. */
  ghost predicate SortedBetween(a: seq<int>, lo: int, hi: int)
    requires 0 <= lo <= hi <= |a|
  {
    forall x, y :: lo <= x < y < hi ==> a[x] <= a[y]
  }

  /** The whole sequence is non-decreasing. */
  ghost predicate Sorted(a: seq<int>)
  {
    SortedBetween(a, 0, |a|)
  }

  /** Position x holds a value greater than the one right after it. */
  ghost predicate InversionAt(a: seq<int>, x: int)
  {
    0 <= x && x + 1 < |a| && a[x] > a[x + 1]
  }

  /** Some position holds a value greater than its successor. */
  ghost predicate HasInversion(a: seq<int>)
  {
    exists x :: InversionAt(a, x)
  }

  /** Every element of s is at most p. */
  ghost predicate AllAtMost(s: seq<int>, p: int)
  {
    forall x :: 0 <= x < |s| ==> s[x] <= p
  }

  /** Every element of s is at least p. */
  ghost predicate AllAtLeast(s: seq<int>, p: int)
  {
    forall x :: 0 <= x < |s| ==> p <= s[x]
  }

  /** Chaining adjacent steps: without inversions, every earlier element is at most every later one. */
  lemma {:induction false} AdjacentChain(a: seq<int>, x: int, y: int)
    requires !HasInversion(a)
    requires 0 <= x <= y < |a|
    ensures a[x] <= a[y]
    decreases y - x
  {
    if x < y {
      assert !InversionAt(a, x);
      AdjacentChain(a, x + 1, y);
    }
  }

  /** "No adjacent inversion" and "non-decreasing" are the same property. */
  lemma {:induction false} NoInversionIffSorted(a: seq<int>)
    ensures !HasInversion(a) <==> Sorted(a)
  {
    if !HasInversion(a) {
      forall x, y | 0 <= x < y < |a|
        ensures a[x] <= a[y]
      {
        AdjacentChain(a, x, y);
      }
    }
  }

  /** A bound on every element survives any rearrangement of the elements. */
  lemma {:induction false} AtMostPermuted(s: seq<int>, t: seq<int>, p: int)
    requires multiset(s) == multiset(t)
    requires AllAtMost(s, p)
    ensures AllAtMost(t, p)
  {
    forall x | 0 <= x < |t|
      ensures t[x] <= p
    {
      assert t[x] in multiset(t);
      assert t[x] in s;
    }
  }

  /** A lower bound on every element survives any rearrangement of the elements. */
  lemma {:induction false} AtLeastPermuted(s: seq<int>, t: seq<int>, p: int)
    requires multiset(s) == multiset(t)
    requires AllAtLeast(s, p)
    ensures AllAtLeast(t, p)
  {
    forall x | 0 <= x < |t|
      ensures p <= t[x]
    {
      assert t[x] in multiset(t);
      assert t[x] in s;
    }
  }

  /**
   * Rearranging the elements of a[lo..hi) while leaving every other position
   * alone rearranges that slice: its multiset is unchanged.
   */
  lemma {:induction false} SlicePermuted(a: seq<int>, b: seq<int>, lo: int, hi: int)
    requires |a| == |b| && multiset(a) == multiset(b)
    requires 0 <= lo <= hi <= |a|
    requires forall x :: 0 <= x < |a| && (x < lo || hi <= x) ==> a[x] == b[x]
    ensures multiset(a[lo..hi]) == multiset(b[lo..hi])
  {
    assert a == a[..lo] + a[lo..hi] + a[hi..];
    assert b == b[..lo] + b[lo..hi] + b[hi..];
    assert a[..lo] == b[..lo];
    assert a[hi..] == b[hi..];
    assert multiset(a) == multiset(a[..lo]) + multiset(a[lo..hi]) + multiset(a[hi..]);
    assert multiset(b) == multiset(b[..lo]) + multiset(b[lo..hi]) + multiset(b[hi..]);
    assert multiset(a[lo..hi]) == multiset(a) - multiset(a[..lo]) - multiset(a[hi..]);
    assert multiset(b[lo..hi]) == multiset(b) - multiset(b[..lo]) - multiset(b[hi..]);
  }

  /** Two non-decreasing arrangements of the same elements are the same sequence. */
  lemma {:induction false} SortedPermutationUnique(a: seq<int>, b: seq<int>)
    requires Sorted(a) && Sorted(b)
    requires multiset(a) == multiset(b)
    ensures a == b
    decreases |a|
  {
    assert |a| == |multiset(a)| == |multiset(b)| == |b|;
    if |a| > 0 {
      assert a == [a[0]] + a[1..];
      assert b == [b[0]] + b[1..];
      assert a[0] in multiset(b);
      var y :| 0 <= y < |b| && b[y] == a[0];
      assert b[0] <= a[0];
      assert b[0] in multiset(a);
      var x :| 0 <= x < |a| && a[x] == b[0];
      assert a[0] <= b[0];
      assert multiset(a[1..]) == multiset(a) - multiset{a[0]};
      assert multiset(b[1..]) == multiset(b) - multiset{b[0]};
      SortedTail(a);
      SortedTail(b);
      SortedPermutationUnique(a[1..], b[1..]);
    }
  }

  /** Dropping the first element of a sorted sequence leaves it sorted. */
  lemma SortedTail(a: seq<int>)
    requires Sorted(a) && |a| > 0
    ensures Sorted(a[1..])
  {
    forall x, y | 0 <= x < y < |a| - 1
      ensures a[1..][x] <= a[1..][y]
    {
      assert a[1..][x] == a[x + 1] && a[1..][y] == a[y + 1];
    }
  }
}

=== FILE: quicksort.dfy ===
/**
 * The instrumented partition-exchange sort of quicksort.cpp as pure functions
 * over the vector's contents.  The two by-reference counters become a
 * `Counters` value threaded through every step and returned with the
 * rearranged contents; each loop of the C++ code becomes a tail-recursive
 * function whose precondition is the loop's invariant.
 *
 * Accounting policy (quicksort.cpp:44-86): reading the pivot is 1 access;
 * every `<` test of a cursor scan, including the failing one that ends the
 * scan, is 1 comparison and 1 access; every `l >= h` test is 1 comparison;
 * every swap is 4 accesses.
 */
module QuickSort {
  import opened Ordering

  /** A pair of comparison and memory-access counts. */
  datatype Counters = Counters(comparisons: nat, accesses: nat)

  /** Nothing counted, as the timing harness zeroes the counters before each call. */
  const Zero := Counters(0, 0)

  /** The counts of `c` followed by those of `d`. */
  function Add(c: Counters, d: Counters): Counters
  {
    Counters(c.comparisons + d.comparisons, c.accesses + d.accesses)
  }

  /** Where a cursor scan stopped, and what it counted. */
  datatype Scan = Scan(stop: int, counted: Counters)

  /**
   * A partition's result: the rearranged contents, the split index `j`,
   * what it counted, how many rounds the outer loop ran (every round but
   * the last ends in a swap), how many cursor tests the scans made, and
   * the pairs of positions swapped, in order.
   */
  datatype Split = Split(arr: seq<int>, j: int, counted: Counters, rounds: nat, tests: nat, swapped: seq<(int, int)>)

  /** A sort's result: the rearranged contents, the counters, and the pairs of positions swapped, in order. */
  datatype Run = Run(arr: seq<int>, counters: Counters, swapped: seq<(int, int)>)

  /**
   * The `l` cursor scan: advance while the element is below the pivot.
   * There is no bounds test in the source; an element at or above the pivot
   * somewhere ahead (the sentinel) is what keeps the scan inside the vector.
   */
  function ScanUp(a: seq<int>, l: int, pivot: int): (r: Scan)
    requires 0 <= l
    requires exists s :: l <= s < |a| && pivot <= a[s]
    ensures l <= r.stop < |a|
    ensures pivot <= a[r.stop]
    ensures forall x :: l <= x < r.stop ==> a[x] < pivot
    ensures r.counted == Counters(r.stop - l + 1, r.stop - l + 1)
    decreases |a| - l
  {
    if a[l] < pivot then
      var rest := ScanUp(a, l + 1, pivot);
      Scan(rest.stop, Add(Counters(1, 1), rest.counted))
    else
      Scan(l, Counters(1, 1))
  }

  /**
   * The `h` cursor scan: retreat while the pivot is below the element,
   * kept inside the vector by an element at or below the pivot somewhere
   * behind.
   */
  function ScanDown(a: seq<int>, h: int, pivot: int): (r: Scan)
    requires h < |a|
    requires exists s :: 0 <= s <= h && a[s] <= pivot
    ensures 0 <= r.stop <= h
    ensures a[r.stop] <= pivot
    ensures forall x :: r.stop < x <= h ==> pivot < a[x]
    ensures r.counted == Counters(h - r.stop + 1, h - r.stop + 1)
    decreases h
  {
    if pivot < a[h] then
      var rest := ScanDown(a, h - 1, pivot);
      Scan(rest.stop, Add(Counters(1, 1), rest.counted))
    else
      Scan(h, Counters(1, 1))
  }

  /** Exchange the elements at positions x and y. */
  function Swap(a: seq<int>, x: int, y: int): (b: seq<int>)
    requires 0 <= x < |a| && 0 <= y < |a|
    ensures |b| == |a| && b[x] == a[y] && b[y] == a[x]
    ensures forall z :: 0 <= z < |a| && z != x && z != y ==> b[z] == a[z]
    ensures multiset(b) == multiset(a)
  {
    a[x := a[y]][y := a[x]]
  }

  /**
   * The contents after swapping the pairs of `ps` one after another, first
   * to last.  A pair naming a position outside the contents is passed
   * over; the sort only ever records pairs inside the range it sorts.
   */
  function ApplySwaps(a: seq<int>, ps: seq<(int, int)>): (b: seq<int>)
    ensures |b| == |a|
    decreases |ps|
  {
    if ps == [] then a
    else if 0 <= ps[0].0 < |a| && 0 <= ps[0].1 < |a| then ApplySwaps(Swap(a, ps[0].0, ps[0].1), ps[1..])
    else ApplySwaps(a, ps[1..])
  }

  /** Swapping the pairs of `xs + ys` is swapping those of `xs`, then those of `ys`. */
  lemma {:induction false} ApplySwapsAppend(a: seq<int>, xs: seq<(int, int)>, ys: seq<(int, int)>)
    ensures ApplySwaps(a, xs + ys) == ApplySwaps(ApplySwaps(a, xs), ys)
    decreases |xs|
  {
    if xs == [] {
      assert xs + ys == ys;
    } else {
      assert (xs + ys)[0] == xs[0];
      assert (xs + ys)[1..] == xs[1..] + ys;
      if 0 <= xs[0].0 < |a| && 0 <= xs[0].1 < |a| {
        ApplySwapsAppend(Swap(a, xs[0].0, xs[0].1), xs[1..], ys);
      } else {
        ApplySwapsAppend(a, xs[1..], ys);
      }
    }
  }

  /** The pivot position of the range [i, k]: its middle, rounding down. */
  function Midpoint(i: int, k: int): (mid: int)
    requires i < k
    ensures i <= mid < k
    ensures (mid - i) <= (k - mid) <= (mid - i) + 1
  {
    i + (k - i) / 2
  }

  /**
   * What holds each time the outer loop of `Partition` starts a round with
   * cursors l and h: everything left of l is at most the pivot, everything
   * right of h is at least it; in the first round the pivot itself is still
   * at `mid`, later rounds start right after a swap, so the swapped elements
   * at l-1 and h+1 are the sentinels for the next scans.
   */
  ghost predicate RoundInvariant(a: seq<int>, i: int, k: int, mid: int, pivot: int, l: int, h: int)
  {
    && 0 <= i <= mid < k < |a|
    && i <= l <= k + 1 && i - 1 <= h <= k
    && (forall x :: i <= x < l ==> a[x] <= pivot)
    && (forall x :: h < x <= k ==> pivot <= a[x])
    && ((l == i && h == k && a[mid] == pivot) || (i < l && l <= h + 1 && h < k))
  }

  /**
   * The outer loop of `Partition`, from a round that starts with cursors l
   * and h: scan both cursors, then either stop (the cursors met or crossed)
   * and return h, or swap, step both cursors inward and go round again.
   * Every round makes at least one test per scan and one `l >= h` test;
   * every round but the last swaps.
   */
  function PartitionLoop(a: seq<int>, i: int, k: int, mid: int, pivot: int, l: int, h: int): (r: Split)
    requires RoundInvariant(a, i, k, mid, pivot, l, h)
    ensures PartitionedAt(a, r.arr, i, k, r.j, pivot)
    ensures CountsRounds(r)
    ensures h - l + 2 <= r.tests <= h - l + 3
    ensures |r.swapped| == r.rounds - 1
    ensures r.arr == ApplySwaps(a, r.swapped)
    decreases h - l + 1
  {
    RoundSentinels(a, i, k, mid, pivot, l, h);
    var up := ScanUp(a, l, pivot);
    var down := ScanDown(a, h, pivot);
    var scanned := Add(up.counted, down.counted);
    if up.stop >= down.stop then
      RoundEnds(a, i, k, mid, pivot, l, h, up.stop, down.stop);
      CursorsAdjacent(a, i, k, mid, pivot, l, h, up.stop, down.stop);
      FinalRoundCounts(a, down.stop, scanned);
      Split(a, down.stop, Add(scanned, Counters(1, 0)), 1, scanned.comparisons, [])
    else
      RoundSwaps(a, i, k, mid, pivot, l, h, up.stop, down.stop);
      var rest := PartitionLoop(Swap(a, up.stop, down.stop), i, k, mid, pivot, up.stop + 1, down.stop - 1);
      SwapKeepsPartition(a, up.stop, down.stop, i, k, rest.arr, rest.j, pivot);
      var ps := [(up.stop, down.stop)] + rest.swapped;
      SwapRoundCounts(scanned, rest, ps);
      SwapReplays(a, up.stop, down.stop, rest.swapped, ps);
      Split(rest.arr, rest.j, Add(Add(scanned, Counters(1, 4)), rest.counted), rest.rounds + 1, scanned.comparisons + rest.tests, ps)
  }

  /** Swapping x and y, then the pairs of `rest`, is swapping the pairs of `(x, y)` followed by `rest`. */
  lemma SwapReplays(a: seq<int>, x: int, y: int, rest: seq<(int, int)>, ps: seq<(int, int)>)
    requires 0 <= x < |a| && 0 <= y < |a|
    requires ps == [(x, y)] + rest
    ensures ApplySwaps(a, ps) == ApplySwaps(Swap(a, x, y), rest)
  {
    assert ps[0] == (x, y) && ps[1..] == rest;
  }

  /**
   * The counts of a partition's rounds: each round makes at least one test
   * per scan (1 comparison and 1 access each) and one `l >= h` test
   * (1 comparison); each round but the last swaps (4 accesses).
   */
  predicate CountsRounds(r: Split)
  {
    && r.rounds >= 1 && r.tests >= 2 * r.rounds
    && r.counted == Counters(r.tests + r.rounds, r.tests + 4 * (r.rounds - 1))
  }

  /** The round that ends the partition: its scans' tests, then one `l >= h` test that stops the loop. */
  lemma FinalRoundCounts(a: seq<int>, j: int, scanned: Counters)
    requires scanned.comparisons == scanned.accesses >= 2
    ensures CountsRounds(Split(a, j, Add(scanned, Counters(1, 0)), 1, scanned.comparisons, []))
  {
  }

  /** A round that swaps: its scans' tests, one `l >= h` test and a 4-access swap, before the rounds after it. */
  lemma SwapRoundCounts(scanned: Counters, rest: Split, ps: seq<(int, int)>)
    requires scanned.comparisons == scanned.accesses >= 2
    requires CountsRounds(rest)
    ensures CountsRounds(Split(rest.arr, rest.j, Add(Add(scanned, Counters(1, 4)), rest.counted), rest.rounds + 1, scanned.comparisons + rest.tests, ps))
  {
  }

  /**
   * `b` is `a` with [i, k] partitioned at j around the pivot: a
   * rearrangement that leaves every position outside [i, k] alone and puts
   * only elements at most the pivot in [i, j] and only elements at least
   * the pivot in [j+1, k], with i <= j < k.
   */
  ghost predicate PartitionedAt(a: seq<int>, b: seq<int>, i: int, k: int, j: int, pivot: int)
  {
    && |b| == |a| && multiset(b) == multiset(a)
    && (forall x :: 0 <= x < |a| && (x < i || k < x) ==> b[x] == a[x])
    && 0 <= i <= j < k < |a|
    && (forall x :: i <= x <= j ==> b[x] <= pivot)
    && (forall x :: j < x <= k ==> pivot <= b[x])
  }

  /**
   * At the start of a round both unchecked scans have a sentinel inside
   * [i, k]: an element at or above the pivot at or after l, and one at or
   * below it at or before h.  So neither scan leaves the range.
   */
  lemma RoundSentinels(a: seq<int>, i: int, k: int, mid: int, pivot: int, l: int, h: int)
    requires RoundInvariant(a, i, k, mid, pivot, l, h)
    ensures 0 <= l && exists s :: l <= s <= k && pivot <= a[s]
    ensures h < |a| && exists s :: i <= s <= h && a[s] <= pivot
    ensures ScanUp(a, l, pivot).stop <= k && i <= ScanDown(a, h, pivot).stop
  {
    if l == i && h == k && a[mid] == pivot {
      assert pivot <= a[mid] && a[mid] <= pivot;
    } else {
      assert pivot <= a[h + 1] && a[l - 1] <= pivot;
    }
  }

  /** Swapping two positions inside [i, k] before partitioning it does not change what partitioning it means. */
  lemma SwapKeepsPartition(a: seq<int>, lo: int, hi: int, i: int, k: int, b: seq<int>, j: int, pivot: int)
    requires 0 <= i <= lo < hi <= k < |a|
    requires PartitionedAt(Swap(a, lo, hi), b, i, k, j, pivot)
    ensures PartitionedAt(a, b, i, k, j, pivot)
  {
  }

  /** What the two scans of a round establish about their stopping points lo and hi. */
  ghost predicate ScansStopped(a: seq<int>, pivot: int, l: int, h: int, lo: int, hi: int)
  {
    && 0 <= l <= lo < |a| && 0 <= hi <= h < |a|
    && pivot <= a[lo] && a[hi] <= pivot
    && (forall x :: l <= x < lo ==> a[x] < pivot)
    && (forall x :: hi < x <= h ==> pivot < a[x])
  }

  /** A round whose cursors met or crossed leaves [i, hi] at most and [hi+1, k] at least the pivot. */
  lemma RoundEnds(a: seq<int>, i: int, k: int, mid: int, pivot: int, l: int, h: int, lo: int, hi: int)
    requires RoundInvariant(a, i, k, mid, pivot, l, h)
    requires ScansStopped(a, pivot, l, h, lo, hi)
    requires lo >= hi
    ensures PartitionedAt(a, a, i, k, hi, pivot)
  {
    if l == i && h == k && a[mid] == pivot {
      assert lo <= mid;
      assert mid <= hi;
    } else {
      assert a[l - 1] <= pivot;
    }
  }

  /**
   * Cursors that meet or cross end at most one position apart: a position
   * strictly between them would be both below and above the pivot.  So the
   * two scans of a partition make one test per position of the range, plus
   * one or two where the cursors meet or cross.
   */
  lemma CursorsAdjacent(a: seq<int>, i: int, k: int, mid: int, pivot: int, l: int, h: int, lo: int, hi: int)
    requires RoundInvariant(a, i, k, mid, pivot, l, h)
    requires ScansStopped(a, pivot, l, h, lo, hi)
    requires lo >= hi
    ensures lo <= hi + 1
  {
    if l == i && h == k && a[mid] == pivot {
      assert lo <= mid <= hi;
    } else {
      assert a[l - 1] <= pivot && pivot <= a[h + 1];
      if hi + 1 <= h {
        assert pivot < a[hi + 1];
      }
    }
  }

  /** A round whose cursors have not met swaps them and re-establishes the round invariant one step inward. */
  lemma RoundSwaps(a: seq<int>, i: int, k: int, mid: int, pivot: int, l: int, h: int, lo: int, hi: int)
    requires RoundInvariant(a, i, k, mid, pivot, l, h)
    requires ScansStopped(a, pivot, l, h, lo, hi)
    requires lo < hi
    ensures i <= lo && hi <= k
    ensures RoundInvariant(Swap(a, lo, hi), i, k, mid, pivot, lo + 1, hi - 1)
    ensures hi - 1 - (lo + 1) < h - l
  {
    var b := Swap(a, lo, hi);
    assert forall x :: i <= x < lo + 1 ==> b[x] <= pivot by {
      forall x | i <= x < lo + 1 ensures b[x] <= pivot {
        if x < lo { assert b[x] == a[x]; }
      }
    }
    assert forall x :: hi - 1 < x <= k ==> pivot <= b[x] by {
      forall x | hi - 1 < x <= k ensures pivot <= b[x] {
        if hi < x { assert b[x] == a[x]; }
      }
    }
  }

  /**
   * Partition [i, k] around the value at its middle position.  Returns the
   * last index `j` of the low part: i <= j < k, everything in [i, j] is at
   * most the pivot and everything in [j+1, k] at least it.
   */
  function Partition(a: seq<int>, i: int, k: int): (r: Split)
    requires 0 <= i < k < |a|
    ensures PartitionedAt(a, r.arr, i, k, r.j, a[Midpoint(i, k)])
    ensures r.rounds >= 1 && r.tests >= 2 * r.rounds
    ensures r.counted == Counters(r.tests + r.rounds, 1 + r.tests + 4 * (r.rounds - 1))
    ensures k - i + 2 <= r.tests <= k - i + 3
    ensures |r.swapped| == r.rounds - 1
    ensures r.arr == ApplySwaps(a, r.swapped)
  {
    var mid := Midpoint(i, k);
    var rounds := PartitionLoop(a, i, k, mid, a[mid], i, k);
    Split(rounds.arr, rounds.j, Add(Counters(0, 1), rounds.counted), rounds.rounds, rounds.tests, rounds.swapped)
  }

  /**
   * Sort [i, k]: nothing to do for fewer than two elements,
   * otherwise partition and sort the low part [i, j] and the high part
   * [j+1, k].  Both parts are strictly smaller than [i, k] because the
   * partition returns i <= j < k, which is what ends the recursion.
   */
  function QuickSortRecurse(a: seq<int>, i: int, k: int): (r: Run)
    requires i < k ==> 0 <= i && k < |a|
    ensures SortedRange(a, r.arr, i, k)
    ensures i >= k ==> r == Run(a, Zero, [])
    ensures r.arr == ApplySwaps(a, r.swapped)
    ensures r.counters.accesses == r.counters.comparisons + 3 * |r.swapped|
    decreases k - i
  {
    if i >= k then
      Run(a, Zero, [])
    else
      var p := Partition(a, i, k);
      var low := QuickSortRecurse(p.arr, i, p.j);
      var high := QuickSortRecurse(low.arr, p.j + 1, k);
      SortedHalvesJoin(a, p.arr, low.arr, high.arr, i, p.j, k, a[Midpoint(i, k)]);
      ApplySwapsAppend(a, p.swapped + low.swapped, high.swapped);
      ApplySwapsAppend(a, p.swapped, low.swapped);
      Run(high.arr, Add(Add(p.counted, low.counters), high.counters), p.swapped + low.swapped + high.swapped)
  }


  /** The largest vector length whose last index fits a 32-bit signed `int`. */
  const MaxSortable: nat := 0x8000_0000

  /**
   * `numbers->size() - 1` passed as the `int` parameter k: the subtraction
   * is done on the 64-bit unsigned size (so 0 - 1 wraps to 2^64 - 1) and
   * the conversion to a 32-bit `int` keeps the low 32 bits as a two's
   * complement value.
   */
  function LastIndex(size: nat): (k: int)
    ensures k < size
    ensures size == 0 ==> k == -1
    ensures 1 <= size <= MaxSortable ==> k == size - 1
  {
    var wrapped := (size - 1) % 0x1_0000_0000_0000_0000;
    var low := wrapped % 0x1_0000_0000;
    if low < 0x8000_0000 then low else low - 0x1_0000_0000
  }

  /**
   * `b` is `a` with [i, k] sorted: a rearrangement that leaves every
   * position outside [i, k] alone and, when the range has two or more
   * elements, puts [i, k] in non-decreasing order.
   */
  ghost predicate SortedRange(a: seq<int>, b: seq<int>, i: int, k: int)
  {
    && |b| == |a| && multiset(b) == multiset(a)
    && (forall x :: 0 <= x < |a| && (x < i || k < x) ==> b[x] == a[x])
    && (i < k ==> 0 <= i && k < |a| && SortedBetween(b, i, k + 1))
  }

  /**
   * The step that makes quicksort correct: after a partition at j around
   * the pivot, sorting [i, j] and then [j+1, k] sorts [i, k].
   */
  lemma SortedHalvesJoin(a: seq<int>, parted: seq<int>, low: seq<int>, high: seq<int>, i: int, j: int, k: int, pivot: int)
    requires PartitionedAt(a, parted, i, k, j, pivot)
    requires SortedRange(parted, low, i, j)
    requires SortedRange(low, high, j + 1, k)
    ensures SortedRange(a, high, i, k)
  {
    // The low part, once sorted, is still bounded above by the pivot, and the second call leaves it alone.
    assert AllAtMost(parted[i..j + 1], pivot);
    SlicePermuted(parted, low, i, j + 1);
    AtMostPermuted(parted[i..j + 1], low[i..j + 1], pivot);
    UntouchedSlice(low, high, j + 1, k, i, j + 1);
    // The high part is untouched by the first call, so its sorted form is bounded below by the pivot.
    assert AllAtLeast(parted[j + 1..k + 1], pivot);
    UntouchedSlice(parted, low, i, j, j + 1, k + 1);
    SlicePermuted(low, high, j + 1, k + 1);
    AtLeastPermuted(low[j + 1..k + 1], high[j + 1..k + 1], pivot);
    SortedSliceKept(low, high, i, j + 1);
    SortedAroundPivot(high, i, j, k, pivot);
  }

  /** A step that changes nothing outside [i, k] leaves a slice [lo, hi) outside it alone. */
  lemma UntouchedSlice(a: seq<int>, b: seq<int>, i: int, k: int, lo: int, hi: int)
    requires |a| == |b| && 0 <= lo <= hi <= |a|
    requires forall x :: 0 <= x < |a| && (x < i || k < x) ==> b[x] == a[x]
    requires hi <= i || k < lo
    ensures a[lo..hi] == b[lo..hi]
  {
  }

  /** A sorted slice stays sorted when the slice itself is left alone. */
  lemma SortedSliceKept(a: seq<int>, b: seq<int>, lo: int, hi: int)
    requires 0 <= lo <= hi <= |a| == |b|
    requires a[lo..hi] == b[lo..hi]
    requires SortedBetween(a, lo, hi)
    ensures SortedBetween(b, lo, hi)
  {
    forall x, y | lo <= x < y < hi
      ensures b[x] <= b[y]
    {
      assert b[x] == b[lo..hi][x - lo] == a[x];
      assert b[y] == b[lo..hi][y - lo] == a[y];
    }
  }

  /**
   * Two sorted neighbouring slices, the first at most and the second at
   * least the pivot, make one sorted slice.
   */
  lemma SortedAroundPivot(a: seq<int>, i: int, j: int, k: int, pivot: int)
    requires 0 <= i <= j < k < |a|
    requires SortedBetween(a, i, j + 1) && SortedBetween(a, j + 1, k + 1)
    requires AllAtMost(a[i..j + 1], pivot) && AllAtLeast(a[j + 1..k + 1], pivot)
    ensures SortedBetween(a, i, k + 1)
  {
    forall x, y | i <= x < y < k + 1
      ensures a[x] <= a[y]
    {
      if x <= j < y {
        assert a[x] == a[i..j + 1][x - i];
        assert a[y] == a[j + 1..k + 1][y - (j + 1)];
      }
    }
  }

  /**
   * Sort the whole vector: `QuickSortRecurse` over [0, size - 1], adding
   * what it counts to the caller's counters.  The result is a rearrangement
   * of the input, and sorted for every vector whose last index fits an
   * `int`.  An empty or single-element vector is returned unchanged with
   * the counters untouched.
   */
  function QuickSort(a: seq<int>, c: Counters): (r: Run)
    ensures |r.arr| == |a| && multiset(r.arr) == multiset(a)
    ensures |a| <= MaxSortable ==> Sorted(r.arr)
    ensures |a| <= 1 ==> r == Run(a, c, [])
    ensures r.arr == ApplySwaps(a, r.swapped)
    ensures CountedFrom(c, r.counters, |r.swapped|)
  {
    var sorted := QuickSortRecurse(a, 0, LastIndex(|a|));
    Run(sorted.arr, Add(c, sorted.counters), sorted.swapped)
  }

  /**
   * The counters went from `c` to `d` by additions only, and the accesses
   * added exceed the comparisons added by exactly three per swap.
   */
  ghost predicate CountedFrom(c: Counters, d: Counters, swaps: nat)
  {
    && c.comparisons <= d.comparisons && c.accesses <= d.accesses
    && (d.accesses - c.accesses) - (d.comparisons - c.comparisons) == 3 * swaps
  }

  /**
   * The sorted contents depend only on the multiset of the input, not on
   * its order or on the counters passed in: any two rearrangements of the
   * same values sort to the same vector.
   */
  lemma SortedContentsDetermined(a: seq<int>, b: seq<int>, c: Counters, d: Counters)
    requires multiset(a) == multiset(b)
    requires |a| <= MaxSortable
    ensures QuickSort(a, c).arr == QuickSort(b, d).arr
  {
    var ra := QuickSort(a, c).arr;
    var rb := QuickSort(b, d).arr;
    assert |a| == |multiset(a)| == |multiset(b)| == |b|;
    SortedPermutationUnique(ra, rb);
  }

  /** Sorting an already sorted vector leaves it as it is (the counters still move). */
  lemma SortIdempotent(a: seq<int>, c: Counters, d: Counters)
    requires |a| <= MaxSortable
    ensures QuickSort(QuickSort(a, c).arr, d).arr == QuickSort(a, c).arr
  {
    var once := QuickSort(a, c).arr;
    SortedPermutationUnique(QuickSort(once, d).arr, once);
  }

  /**
   * What a sort adds to the counters does not depend on their values
   * before the call: the counts are a function of the input vector alone.
   */
  lemma CountsIndependentOfStart(a: seq<int>, c: Counters)
    ensures QuickSort(a, c).arr == QuickSort(a, Zero).arr
    ensures QuickSort(a, c).counters == Add(c, QuickSort(a, Zero).counters)
    ensures QuickSort(a, c).swapped == QuickSort(a, Zero).swapped
  {
    var sorted := QuickSortRecurse(a, 0, LastIndex(|a|));
    assert QuickSort(a, c) == Run(sorted.arr, Add(c, sorted.counters), sorted.swapped);
    assert QuickSort(a, Zero) == Run(sorted.arr, Add(Zero, sorted.counters), sorted.swapped);
  }

  /** The first round on [2, 1]: both scans stop at once, and the pair is swapped. */
  lemma PairFirstRound(a: seq<int>, b: seq<int>)
    requires a == [2, 1] && b == [1, 2]
    ensures 2 <= a[0] && ScanUp(a, 0, 2) == Scan(0, Counters(1, 1))
    ensures a[1] <= 2 && ScanDown(a, 1, 2) == Scan(1, Counters(1, 1))
    ensures Swap(a, 0, 1) == b
  {
    assert Swap(a, 0, 1) == b;
  }

  /** The scans of the second round on [1, 2]: each stops at its first test. */
  lemma PairSecondScans(b: seq<int>)
    requires b == [1, 2]
    ensures 2 <= b[1] && ScanUp(b, 1, 2) == Scan(1, Counters(1, 1))
    ensures b[0] <= 2 && ScanDown(b, 0, 2) == Scan(0, Counters(1, 1))
  {
  }

  /** The second round on [1, 2]: the cursors have crossed, so h = 0 is returned. */
  lemma PairSecondRound(b: seq<int>)
    requires b == [1, 2]
    ensures PartitionLoop(b, 0, 1, 0, 2, 1, 0) == Split(b, 0, Counters(3, 2), 1, 2, [])
  {
    PairSecondScans(b);
  }

  /** Two elements out of order: one swapping round, then one that stops. */
  lemma PairRounds(a: seq<int>, b: seq<int>)
    requires a == [2, 1] && b == [1, 2]
    ensures PartitionLoop(a, 0, 1, 0, 2, 0, 1) == Split(b, 0, Counters(6, 8), 2, 4, [(0, 1)])
  {
    PairFirstRound(a, b);
    PairSecondRound(b);
  }

  /** The partition of [2, 1]: the pivot read, then the two rounds. */
  lemma PairPartition(a: seq<int>, b: seq<int>)
    requires a == [2, 1] && b == [1, 2]
    ensures Partition(a, 0, 1) == Split(b, 0, Counters(6, 9), 2, 4, [(0, 1)])
  {
    PairRounds(a, b);
    assert Midpoint(0, 1) == 0 && a[0] == 2;
  }

  /** The recursion over [0, k] = [0, 1] of [2, 1]: the partition, then two ranges of one element. */
  lemma PairRecurse(a: seq<int>, b: seq<int>, i: int, k: int)
    requires a == [2, 1] && b == [1, 2] && i == 0 && k == 1
    ensures QuickSortRecurse(a, i, k) == Run(b, Counters(6, 9), [(0, 1)])
  {
    PairPartition(a, b);
    var p := Partition(a, i, k);
    var low := QuickSortRecurse(p.arr, i, p.j);
    assert low == Run(b, Zero, []);
    var high := QuickSortRecurse(low.arr, p.j + 1, k);
    assert high == Run(b, Zero, []);
    assert QuickSortRecurse(a, i, k) == Run(high.arr, Add(Add(p.counted, low.counters), high.counters), p.swapped + low.swapped + high.swapped);
    assert p.swapped + low.swapped + high.swapped == [(0, 1)];
  }

  /**
   * Sorting [2, 1]: one partition with one swap, then two single-element
   * ranges that count nothing; 6 comparisons and 9 accesses in all.
   */
  lemma PairExample(a: seq<int>, b: seq<int>, c: Counters)
    requires a == [2, 1] && b == [1, 2] && c == Zero
    ensures QuickSort(a, c) == Run(b, Counters(6, 9), [(0, 1)])
  {
    assert LastIndex(|a|) == 1;
    PairRecurse(a, b, 0, LastIndex(|a|));
  }

  /** A sorted input comes back as it is, whatever the counters. */
  lemma SortedInputUnchanged(a: seq<int>, c: Counters)
    requires Sorted(a) && |a| <= MaxSortable
    ensures QuickSort(a, c).arr == a
  {
    SortedPermutationUnique(QuickSort(a, c).arr, a);
  }

  /**
   * A vector whose values are all equal, the input on which the scans stop
   * at every element and swap equal values, comes back as it is; the sort
   * of it ends, as every sort does.
   */
  lemma AllEqualUnchanged(a: seq<int>, c: Counters)
    requires |a| <= MaxSortable
    requires forall x :: 0 <= x < |a| ==> a[x] == a[0]
    ensures QuickSort(a, c).arr == a
  {
    assert Sorted(a);
    SortedInputUnchanged(a, c);
  }
}

=== FILE: results_document.dfy ===
/**
 * The parsed form of a results document, shared by the sortedness checker
 * and the consistency checker: sample names mapped to the samples' values,
 * next to one entry that holds the run's parameters instead.
 */
module ResultsDocument {

  /** The document entry that holds the run's parameters rather than a sample. */
  const MetadataKey: string := "metadata"

  /** A parsed results document: sample name to the sample's values. */
  type Document = map<string, seq<int>>
}

=== FILE: sorted_verification.dfy ===
/**
 * The sortedness checker of sortedverification.cxx: for every sample of a
 * results document other than the "metadata" entry, scan adjacent pairs
 * for inversions, record each one under its position, and count the
 * samples that have any.
 *
 * The parsed document is a map from sample name to the sample's integers;
 * the position keys, which the program writes as decimal strings, are kept
 * as the numbers themselves (decimal writing is one-to-one, so nothing is
 * lost).  JSON reading and writing, and the metadata fields copied from
 * input to output, are not part of this model.
 */
module SortedVerification {
  import opened Ordering
  import QuickSort
  import opened ResultsDocument

  /** The output entry for a sample with inversions: the inversions by position, and the sample itself. */
  datatype Flagged = Flagged(consecutiveInversions: map<nat, (int, int)>, sample: seq<int>)

  /** The checker's output: one entry per flagged sample, and how many samples were flagged. */
  datatype Report = Report(flagged: map<string, Flagged>, samplesWithInversions: nat)

  /**
   * `inversions` records exactly the inversions of s: position x is a key
   * iff s[x] > s[x+1], and its value is that pair.
   */
  ghost predicate RecordsInversions(inversions: map<nat, (int, int)>, s: seq<int>)
  {
    && (forall x :: x in inversions <==> InversionAt(s, x))
    && (forall x :: x in inversions ==> x + 1 < |s| && inversions[x] == (s[x], s[x + 1]))
  }

  /** The entry the checker writes for sample s. */
  ghost predicate FlaggedFor(entry: Flagged, s: seq<int>)
  {
    entry.sample == s && RecordsInversions(entry.consecutiveInversions, s)
  }

  /**
   * The inner loop: compare every element with its successor and record
   * each inversion.  The loop runs while i + 1 < |s|, which for an empty
   * sample does not run at all (see `AsWrittenScanBound` for the bound as
   * the source writes it).  The flag is set iff the sample is not sorted.
   */
  method ScanSample(s: seq<int>) returns (inversions: map<nat, (int, int)>, hasInversions: bool)
    ensures RecordsInversions(inversions, s)
    ensures hasInversions <==> inversions != map[]
    ensures hasInversions <==> !Sorted(s)
  {
    inversions := map[];
    hasInversions := false;
    var i: nat := 0;
    while i + 1 < |s|
      invariant |s| == 0 || i < |s|
      invariant forall x :: x in inversions <==> InversionAt(s, x) && x < i
      invariant forall x :: x in inversions ==> x + 1 < |s| && inversions[x] == (s[x], s[x + 1])
      invariant hasInversions <==> inversions != map[]
    {
      if s[i] > s[i + 1] {
        hasInversions := true;
        inversions := inversions[i := (s[i], s[i + 1])];
      }
      i := i + 1;
    }
    assert forall x :: InversionAt(s, x) ==> x < i;
    if hasInversions {
      var x :| x in inversions;
      assert InversionAt(s, x);
    } else {
      assert !HasInversion(s);
    }
    NoInversionIffSorted(s);
  }

  /**
   * After some of the document's names have been visited: exactly the
   * visited non-metadata samples that are not sorted have an entry, and
   * each entry is the one `ScanSample` gives.
   */
  ghost predicate ReportedSoFar(flagged: map<string, Flagged>, doc: Document, visited: set<string>)
  {
    FlaggedExactly(flagged.Keys, doc, visited) && EntriesRecorded(flagged, doc)
  }

  /** The flagged names are exactly the visited non-metadata samples that are not sorted. */
  ghost predicate FlaggedExactly(names: set<string>, doc: Document, visited: set<string>)
  {
    forall n :: n in names <==> n in visited && n in doc && n != MetadataKey && !Sorted(doc[n])
  }

  /** Every entry belongs to a sample of the document and records that sample's inversions. */
  ghost predicate EntriesRecorded(flagged: map<string, Flagged>, doc: Document)
  {
    forall n :: n in flagged ==> n in doc && FlaggedFor(flagged[n], doc[n])
  }

  /**
   * The outer loop: visit every name of the document once, skip the
   * metadata entry, and flag each sample whose scan finds an inversion.
   * The order of the visits does not matter to the result.
   */
  method CheckSorted(doc: Document) returns (report: Report)
    ensures ReportedSoFar(report.flagged, doc, doc.Keys)
    ensures MetadataKey !in report.flagged
    ensures report.samplesWithInversions == |report.flagged.Keys|
  {
    var flagged: map<string, Flagged> := map[];
    var count: nat := 0;
    var remaining := doc.Keys;
    while remaining != {}
      invariant remaining <= doc.Keys
      invariant ReportedSoFar(flagged, doc, doc.Keys - remaining)
      invariant count == |flagged.Keys|
      decreases remaining
    {
      var name :| name in remaining;
      var visited := doc.Keys - remaining;
      assert doc.Keys - (remaining - {name}) == visited + {name};
      remaining := remaining - {name};
      if name == MetadataKey {
        VisitUnflagged(flagged, doc, visited, name);
      } else {
        var inversions, hasInversions := ScanSample(doc[name]);
        if hasInversions {
          VisitFlagged(flagged, doc, visited, name, Flagged(inversions, doc[name]));
          flagged := flagged[name := Flagged(inversions, doc[name])];
          count := count + 1;
        } else {
          VisitUnflagged(flagged, doc, visited, name);
        }
      }
    }
    report := Report(flagged, count);
  }

  /** Visiting the metadata entry or a sorted sample adds no entry. */
  lemma VisitUnflagged(flagged: map<string, Flagged>, doc: Document, visited: set<string>, name: string)
    requires ReportedSoFar(flagged, doc, visited)
    requires name in doc && (name == MetadataKey || Sorted(doc[name]))
    ensures ReportedSoFar(flagged, doc, visited + {name})
  {
  }

  /** Visiting an unsorted sample adds its entry, which was not there before. */
  lemma VisitFlagged(flagged: map<string, Flagged>, doc: Document, visited: set<string>, name: string, entry: Flagged)
    requires ReportedSoFar(flagged, doc, visited)
    requires name in doc && name !in visited && name != MetadataKey && !Sorted(doc[name])
    requires FlaggedFor(entry, doc[name])
    ensures name !in flagged
    ensures |flagged[name := entry].Keys| == |flagged.Keys| + 1
    ensures ReportedSoFar(flagged[name := entry], doc, visited + {name})
  {
    var after := flagged[name := entry];
    assert after.Keys == flagged.Keys + {name};
    FlaggedOneMore(flagged.Keys, doc, visited, name);
    EntryAdded(flagged, doc, name, entry);
  }

  /** Visiting an unsorted sample adds its name to the flagged names. */
  lemma FlaggedOneMore(names: set<string>, doc: Document, visited: set<string>, name: string)
    requires FlaggedExactly(names, doc, visited)
    requires name in doc && name != MetadataKey && !Sorted(doc[name])
    ensures FlaggedExactly(names + {name}, doc, visited + {name})
  {
  }

  /** Adding the entry of a sample keeps every entry recorded. */
  lemma EntryAdded(flagged: map<string, Flagged>, doc: Document, name: string, entry: Flagged)
    requires EntriesRecorded(flagged, doc)
    requires name in doc && FlaggedFor(entry, doc[name])
    ensures EntriesRecorded(flagged[name := entry], doc)
  {
    var after := flagged[name := entry];
    forall n | n in after
      ensures n in doc && FlaggedFor(after[n], doc[n])
    {
      if n != name {
        assert after[n] == flagged[n];
      }
    }
  }

  /**
   * A sample the sort produced is never flagged: its output has no
   * inversion, for every vector whose last index fits an `int`.
   */
  lemma SortOutputHasNoInversion(a: seq<int>, c: QuickSort.Counters)
    requires |a| <= QuickSort.MaxSortable
    ensures !HasInversion(QuickSort.QuickSort(a, c).arr)
  {
    NoInversionIffSorted(QuickSort.QuickSort(a, c).arr);
  }

  /**
   * A report with no flagged sample means every sample is sorted, and
   * conversely; this is the question the checker answers.
   */
  lemma EmptyReportIffAllSorted(doc: Document, report: Report)
    requires ReportedSoFar(report.flagged, doc, doc.Keys)
    requires report.samplesWithInversions == |report.flagged.Keys|
    ensures report.samplesWithInversions == 0
        <==> forall n :: n in doc && n != MetadataKey ==> Sorted(doc[n])
  {
    if report.samplesWithInversions == 0 {
      assert report.flagged.Keys == {};
      forall n | n in doc && n != MetadataKey
        ensures Sorted(doc[n])
      {
        assert n !in report.flagged;
      }
    } else {
      var n :| n in report.flagged.Keys;
      assert !Sorted(doc[n]);
    }
  }

  /** 2^64: the inner loop's bound is computed on the 64-bit unsigned `size()`. */
  const SizeModulus: nat := 0x1_0000_0000_0000_0000

  /**
   * The inner loop's bound as written, `sample_array.size() - 1`: the
   * subtraction is unsigned, so for an empty sample it wraps to 2^64 - 1
   * instead of giving -1 (the int counter is converted to unsigned for the
   * comparison).
   */
  function AsWrittenScanBound(size: nat): (bound: nat)
    requires size < SizeModulus
    ensures bound < SizeModulus
    ensures size == 0 ==> bound == SizeModulus - 1
    ensures 1 <= size ==> bound == size - 1
  {
    (size - 1) % SizeModulus
  }

  /** Round i of the inner loop reads s[i] and s[i+1]; both lie inside a sample of this size. */
  predicate PairInside(i: int, size: nat)
  {
    0 <= i && i + 1 < size
  }

  /** Every round the loop as written runs reads inside the sample. */
  ghost predicate AsWrittenReadsInRange(size: nat)
    requires size < SizeModulus
  {
    forall i :: 0 <= i < AsWrittenScanBound(size) ==> PairInside(i, size)
  }

  /**
   * The loop as written stays inside the sample exactly when the sample is
   * not empty; for an empty sample its first round already reads positions
   * 0 and 1 of an empty vector.
   */
  lemma AsWrittenOutOfRangeIffEmpty(size: nat)
    requires size < SizeModulus
    ensures AsWrittenReadsInRange(size) <==> size >= 1
    ensures size == 0 ==> 0 < AsWrittenScanBound(size) && !PairInside(0, size)
  {
    if size == 0 {
      assert AsWrittenScanBound(size) == SizeModulus - 1;
      assert !PairInside(0, size);
    } else {
      assert AsWrittenScanBound(size) == size - 1;
    }
  }

  /**
   * For a non-empty sample the bound as written and the corrected guard
   * `i + 1 < |s|` of `ScanSample` admit the same positions.
   */
  lemma AsWrittenAgreesWhenNonEmpty(size: nat, i: int)
    requires 1 <= size < SizeModulus && 0 <= i
    ensures i < AsWrittenScanBound(size) <==> i + 1 < size
  {
    assert AsWrittenScanBound(size) == size - 1;
  }
}
